=== FILE: README.md ===
# NotionMediaSync in Dafny

A verified model of the core of the MoviePilot plugin "Notion媒体同步"
(NotionMediaSync). When the host reports that a media file has been
organised, the plugin maps the media item to Notion page properties and
creates a page in the user's Notion database. It records every attempt in a
capped history, and it exposes endpoints that delete history entries and test
the connection.

The model has six modules:

- `Wrappers` (`wrappers.dfy`) holds `Option` and `Result`.
- `IntText` (`int_text.dfy`) covers Python's `str(int)` and base-10
  `int(str)`: whitespace stripping, a sign, and digits with single underscores
  between them.
- `PyValue` (`py_value.dfy`) covers the loosely typed dictionaries the plugin
  passes around. A dict is `map<string, Value>` and
  `Value = VNone | VStr | VInt | VOther`. The module also gives Python
  truthiness, `or`, `dict.get`, `str()`, `str.lower()` and `int()`.
  `VOther` is any other object, such as a float or an enum member. It is
  described only by its truth value, its `str()` text and the result of
  `int()` on it. It has no sequence protocol.
- `NotionClient` (`notion_client.dfy`) models `NotionClient.build_properties`.
  This includes the exceptions it raises itself on the modelled values:
  slicing a `first_air_date` that is not a string, calling `startswith` on a
  poster that is not a string, and taking `len()` of an overview that is not
  a string. The module also models `query_database`'s empty-list fallback and
  `check_duplicate`.
  Notion property names are the enum `Key`, and `Name` gives each key's
  Chinese name.
- `SyncHistory` (`sync_history.dfy`) models `_save_history` and
  `delete_history`. The stored history is a plain sequence value.
- `Plugin` (`plugin.dfy`) models `_build_media_data`, `test_connection` and
  `on_transfer_complete`. The handler is a pure step function over oracle
  inputs: the duplicate query's outcome, the id `create_page` returned, the
  current time, and which values `float()` accepts. The host's API token is
  an input of `test_connection` and `delete_history` only.

Facts about the code that shape the model:

- The code keeps no persisted dedup-key map, no `pending` reservation, no
  mutex, no schema filtering of properties, and no fallback between query
  APIs. Duplicates are found only through the title query of
  `check_duplicate`.
- At `notion_client.py:174` the conditional expression binds looser than
  `or`. So `年份` appears only when `first_air_date` is truthy, and a plain
  `year` yields none (`NotionClient.YearPrecedence`). A movie record with
  `title`, `type`, `year: 2010` and `tmdb_id: 27205` therefore maps to no
  `年份` (`NotionClient.InceptionExample`). The handler's media record has no
  `first_air_date`, so pages it creates never carry `年份`. The record stores
  `number_of_seasons`, which the mapper never reads, so those pages never carry
  `季数` either (`Plugin.CreatedPagesLackYearAndSeason`).
- The history trim keeps `history[-100:]` of the appended list. When 100 or
  more entries were already stored, that is the newest 99 old entries plus
  the new one.

## Model

| member | source | states |
|---|---|---|
| `IntText.ParseInt` | plugins.v2/notionmediasync/notion_client.py:176-177 | `int()` of text: a parse implies that the stripped text is an optional sign followed by digits and underscores that begins and ends with a digit, so blank text, dates, decimals and words never parse (`IntText.NonNumeralsFail` gives `abc`, `2010-07`, `12.5` and `1_`) |
| `IntText.ParseFormatRoundTrip` | plugins.v2/notionmediasync/notion_client.py:183-185 | `int()` reads back exactly the integer whose decimal text `str()` wrote, so a season stored as text converts to the same number |
| `IntText.ParseIgnoresPadding` | plugins.v2/notionmediasync/notion_client.py:176-177 | whitespace around a number does not change what `int()` reads |
| `IntText.BlankIsNotANumber` | plugins.v2/notionmediasync/notion_client.py:176-179 | `int()` of blank text fails, so the year or season is dropped |
| `PyValue.TruthyFromText` | plugins.v2/notionmediasync/notion_client.py:146-147 | a string is false iff its `str()` is empty, and an integer is false iff its `str()` is `0` |
| `PyValue.Str` | plugins.v2/notionmediasync/notion_client.py:193 | `str(None)` is `None`, a string is its own text, an integer is its decimal numeral (`IntText.FormatInt`), and any other object is its own text |
| `IntText.FormatInt` | plugins.v2/notionmediasync/notion_client.py:193 | `str()` of an integer is non-empty: its decimal digits with no leading zero (a lone `0` only for zero), after a `-` when it is negative |
| `PyValue.ToInt` | plugins.v2/notionmediasync/notion_client.py:176-187 | `int()` of text is what the numeral parser reads, of an integer is the integer, of `None` fails, and of any other object is that object's own outcome |
| `PyValue.Or` | plugins.v2/notionmediasync/notion_client.py:146 | `a or b` is truthy iff either operand is, and it returns the first operand when that one is truthy |
| `PyValue.Lower` | plugins.v2/notionmediasync/notion_client.py:170 | lower-casing keeps the length and lowers each ASCII capital |
| `NotionClient.CheckDuplicate` | plugins.v2/notionmediasync/notion_client.py:101-130 | an id is returned iff the query succeeded with a non-empty result, and it is the first result's id |
| `NotionClient.TypeNameCaseInsensitive` | plugins.v2/notionmediasync/notion_client.py:170 | the category of a tag is the category of its lower-cased form, so the case of the tag never matters |
| `NotionClient.UpperCaseMovieTypeName` | plugins.v2/notionmediasync/notion_client.py:160-171 | the tag `MOVIE` is filed under `电影` |
| `NotionClient.YearCandidate` | plugins.v2/notionmediasync/notion_client.py:174 | without a truthy `first_air_date` the year is `None` whatever `year` holds; with both truthy it is `year`; a truthy result is `year` or the first four characters of `first_air_date`; it raises exactly when `first_air_date` is truthy, `year` is not and `first_air_date` is not a string, and then only a `TypeError` |
| `NotionClient.YearPrecedence` | plugins.v2/notionmediasync/notion_client.py:174 | the code as written differs from `year or (first_air_date[:4] if first_air_date else None)` exactly when `year` is truthy and `first_air_date` is not, and then it drops the year |
| `NotionClient.PosterUrlShape` | plugins.v2/notionmediasync/notion_client.py:207-209 | the URL always ends with the given path; it differs from the path exactly when the path starts with `/`, and then it is `https://image.tmdb.org/t/p/w500` followed by the path |
| `NotionClient.PosterUrlIdempotent` | plugins.v2/notionmediasync/notion_client.py:207-209 | rewriting an already rewritten URL changes nothing, since an absolute URL never starts with `/` |
| `NotionClient.Truncate` | plugins.v2/notionmediasync/notion_client.py:217-219 | the result has at most 2000 characters; longer text becomes its first 1997 characters plus `...`; shorter text is unchanged |
| `NotionClient.BuildProperties` | plugins.v2/notionmediasync/notion_client.py:132-236 | on the modelled values, the mapper raises exactly on a non-string `first_air_date` slice, poster or overview, and the first of these in source order decides the exception class |
| `NotionClient.TitleRule` | plugins.v2/notionmediasync/notion_client.py:145-150 | `标题` is present iff `title` or `name` is truthy, and it holds `title`, else `name` |
| `NotionClient.OriginalTitleRule` | plugins.v2/notionmediasync/notion_client.py:152-157 | `原始标题` is present iff `original_title` or `original_name` is truthy, and it holds that value |
| `NotionClient.TypeRule` | plugins.v2/notionmediasync/notion_client.py:159-171 | `类型` is present iff `media_type` or `type` is truthy; its value is the table entry of the lower-cased tag, or `其他` |
| `NotionClient.YearRule` | plugins.v2/notionmediasync/notion_client.py:173-179 | `年份` requires a truthy `first_air_date`; it is then `int(year)`, or `int(first_air_date[:4])` when `year` is falsy, and it is left out when conversion fails |
| `NotionClient.YearNeedsFirstAirDate` | plugins.v2/notionmediasync/notion_client.py:174 | without `first_air_date` there is never a `年份`, and the year cannot make the mapper raise |
| `NotionClient.SeasonRule` | plugins.v2/notionmediasync/notion_client.py:181-187 | `季数` is present iff `season` (else `season_number`) is truthy and converts; a season of 0 is left out |
| `NotionClient.CoercionFailureIsSwallowed` | plugins.v2/notionmediasync/notion_client.py:174-187 | a year or season that does not convert leaves its key out, and the mapper still returns normally |
| `NotionClient.EpisodesRule` | plugins.v2/notionmediasync/notion_client.py:189-194 | `集数` is present iff `total_episodes` (else `number_of_episodes`) is truthy, and it holds that value's `str()` |
| `NotionClient.RatingRule` | plugins.v2/notionmediasync/notion_client.py:196-202 | `评分` is present iff `vote_average` (else `rating`) is truthy and `float()` accepts it |
| `NotionClient.PosterRule` | plugins.v2/notionmediasync/notion_client.py:204-212 | `封面` takes `poster_path`, else `poster`, else `cover_url`; it is absent iff all three are falsy; the chosen value must be a non-empty string and its URL is `PosterUrl` of it |
| `NotionClient.OverviewRule` | plugins.v2/notionmediasync/notion_client.py:214-222 | `简介` is present iff `overview` or `summary` is truthy; text of 2000 characters or fewer is kept whole, and longer text is cut to 1997 characters plus `...` |
| `NotionClient.TmdbIdRule` | plugins.v2/notionmediasync/notion_client.py:224-229 | `TMDB ID` is present iff `tmdb_id` (else `id`) is truthy, and it holds that value's `str()` |
| `NotionClient.SourceRule` | plugins.v2/notionmediasync/notion_client.py:231-234 | `数据源` is `TMDB` when `source` is missing, carries a truthy `source` unchanged, and is absent when `source` is present but falsy |
| `NotionClient.NoEmptyPayload` | plugins.v2/notionmediasync/notion_client.py:143-236 | no key is emitted with a null or empty payload |
| `NotionClient.InceptionExample` | plugins.v2/notionmediasync/notion_client.py:145-234 | the record `title: Inception`, `type: movie`, `year: 2010`, `tmdb_id: 27205` maps to exactly `标题`, `类型=电影`, `TMDB ID="27205"` and `数据源=TMDB`, with no `年份` and no `季数` |
| `SyncHistory.NewEntry` | plugins.v2/notionmediasync/__init__.py:577-586 | the entry stores the given status and time unchanged; its page id is `''` when none is given; a missing title becomes `未知`; type, year, poster and TMDB id are copied from the record, each `''` when missing |
| `SyncHistory.Trim` | plugins.v2/notionmediasync/__init__.py:588-590 | the result has at most 100 entries, a short list is unchanged, and the result is a suffix of the input |
| `SyncHistory.SaveHistory` | plugins.v2/notionmediasync/__init__.py:571-592 | after a save the history has between 1 and 100 entries and ends with the new entry; a shorter prior history is kept as a prefix, otherwise only the oldest entries are dropped |
| `SyncHistory.TrimAbsorbs` | plugins.v2/notionmediasync/__init__.py:588-590 | trimming before appending more entries gives the same list as trimming only at the end |
| `SyncHistory.SaveAllKeepsNewest` | plugins.v2/notionmediasync/__init__.py:575-592 | starting from a history of at most 100 entries, after any run of saves the history is the last 100 of the sequence formed by the old history followed by every appended entry, in order |
| `SyncHistory.KeepOthers` | plugins.v2/notionmediasync/__init__.py:436 | no surviving entry matches the key by page id or by title, and the list never grows |
| `SyncHistory.KeepOthersAppend` | plugins.v2/notionmediasync/__init__.py:436 | the filter distributes over concatenation, so survivors keep their relative order |
| `SyncHistory.KeepOthersContents` | plugins.v2/notionmediasync/__init__.py:436 | every entry the key does not name survives with its multiplicity, and every entry it names is dropped |
| `SyncHistory.KeepOthersIdempotent` | plugins.v2/notionmediasync/__init__.py:436 | deleting twice with the same key is the same as deleting once |
| `SyncHistory.DeleteHistory` | plugins.v2/notionmediasync/__init__.py:424-438 | success iff the API key matches and the history is non-empty; a wrong key or an empty history returns the failure message and leaves the history unchanged; on success exactly the non-matching entries are kept |
| `Plugin.KindValue` | plugins.v2/notionmediasync/__init__.py:555 | an enum member yields its `.value`, a missing `type` attribute yields `''`, and reading `.value` fails exactly when `type` holds `None` |
| `Plugin.BuildMediaData` | plugins.v2/notionmediasync/__init__.py:545-569 | the record has exactly the twelve fixed keys; it copies title, year and TMDB id, stores the type's value under both `type` and `media_type`, and sets `source` to `TMDB`; `original_title` and `overview` default to `''`, `poster` to `''` without `get_poster_image`, and `vote_average`, `number_of_episodes` and `number_of_seasons` to `None`; without media info it is empty |
| `Plugin.TestConnection` | plugins.v2/notionmediasync/__init__.py:440-455 | success iff the API key matches and a client exists; a wrong key or a missing client gives the matching failure message |
| `Plugin.ConnectionCountReadsBack` | plugins.v2/notionmediasync/__init__.py:450-453 | the success message's number reads back as the query's result count, and a failed query reports zero |
| `Plugin.MediaTypeTag` | plugins.v2/notionmediasync/__init__.py:484 | the tag is `str(type.value)` lower-cased, `''` without a `type` attribute, and always already lower-case; reading it raises exactly when `type` is `None` |
| `Plugin.PassesGuards` | plugins.v2/notionmediasync/__init__.py:468-487 | an event gets through only when the plugin is enabled, a client exists, the event has media info with a readable type, and, when the allow-list is non-empty, it holds the tag, which is lower-case |
| `Plugin.AllowListIgnoresCase` | plugins.v2/notionmediasync/__init__.py:484-486 | changing the case of a string media type never changes whether the event gets through |
| `Plugin.UpperCaseAllowListBlocksAll` | plugins.v2/notionmediasync/__init__.py:484-486 | a non-empty allow-list whose entries all contain an upper-case letter lets no event through |
| `Plugin.OnTransferComplete` | plugins.v2/notionmediasync/__init__.py:463-523 | a guarded-out event changes nothing; otherwise, unless an exception escapes, exactly one entry is appended; `skipped` iff skipping is on and a duplicate id was found, and then no page is created; `success` iff create returned an id |
| `Plugin.HandlerEffects` | plugins.v2/notionmediasync/__init__.py:487-523 | past the guards the outcome is never "ignored"; a recorded event's history is the old history with one entry appended and trimmed; a created page carries exactly the mapper's properties for the media record |
| `Plugin.GuardsHaveNoEffect` | plugins.v2/notionmediasync/__init__.py:468-487 | disabled, no client, empty event data, missing media info, or a type outside a non-empty allow-list: no history entry, no create, no notice |
| `Plugin.MediaDataSources` | plugins.v2/notionmediasync/__init__.py:549-563 | the handler's record lacks `first_air_date`, `season`, `season_number`, `poster_path`, `cover_url`, `summary` and `name`, which the mapper also reads, so its title, poster and overview are the media object's own |
| `Plugin.CreatedPagesLackYearAndSeason` | plugins.v2/notionmediasync/__init__.py:552-562 | every page the handler creates lacks `年份` and `季数` and is tagged `数据源=TMDB` |
| `Plugin.RaisesOnlyOnNonStringText` | plugins.v2/notionmediasync/__init__.py:496-507 | after the guards, an exception escapes iff no duplicate was skipped and the media's poster or overview is truthy but not a string |
| `Plugin.RecordedEntry` | plugins.v2/notionmediasync/__init__.py:500-523 | the recorded entry has the media's title, type value, year, TMDB id and poster image, the given time, and a page id iff the sync succeeded |
| `Plugin.SyncNotice` | plugins.v2/notionmediasync/__init__.py:509-519 | a successful sync sends a notice iff notifications are on, and it reads `已同步: ` followed by the title's `str()` and carries the poster image |

## Left out

- The Notion SDK calls in `create_page`, `update_page` and `query_database` pass straight through to a library that is not part of this model. Their results are oracle inputs. `update_page` is not called by the plugin and is not modelled.
- `float(rating)` is the oracle parameter `floatOk`. The number it produces is not modelled; the payload keeps the source value.
- `IntText.ParseInt`: `\x1c`-`\x1f`, Unicode whitespace and non-ASCII decimal digits are not accepted, although Python's `int()` accepts them.
- `IntText.ParseInt`: there is no limit on the number of digits. Since Python 3.11, `int()` of text with more than 4300 digits raises a `ValueError` (the mapper swallows it for the year and season), while the model parses it.
- `PyValue.Lower` lower-cases ASCII letters only. Lookups in the type table are unaffected because no other upper-case character lower-cases to a table key. An allow-list entry written with non-ASCII capitals could compare differently.
- `NotionClient.BuildProperties`: lists are not among the modelled values. A list poster would raise `AttributeError` at `startswith`, as any non-string does here. A list overview of at most 2000 items would pass through whole, and a longer one would raise `TypeError` at the `+ '...'`; the model instead raises `TypeError` at `len()` for every truthy non-string overview.
- `NotionClient.BuildProperties`: an `OverflowError` is not modelled. The `except (ValueError, TypeError)` clauses do not catch it, so `int(float('inf'))` as year or season, or `float(10**400)` as rating, would escape; the model returns the properties without that key.
- `NotionClient.BuildProperties`: since Python 3.11, `str()` of an integer with more than 4300 digits raises an uncaught `ValueError` for `集数` and `TMDB ID`; the model writes the numeral.
- `NotionClient.NoEmptyPayload` assumes `str()` of a truthy `VOther` is non-empty (`PyValue.WellFormed`).
- `NotionClient.CheckDuplicate`: the title filter is left to the oracle that supplies the query outcome. A `KeyError` from a result without an `id` is not modelled.
- The `except` branch of `test_connection` is not modelled: `query_database` already catches every failure, so that branch never runs.
- Logging, the `post_message` notification (only its text and image are kept, as `Plugin.Notice`), `datetime.now()` (passed in as `now`), `settings.API_TOKEN` (passed in as `token`), and the client construction in `init_plugin` (reduced to the flag `clientReady`).
- The host's `get_data`/`save_data` persistence. The history is a sequence value, and a missing history is the empty one.
- The property dict's insertion order. Notion ignores it, so the model uses an unordered map.
- UI schemas and host hooks with no behaviour to verify: `get_form`, `get_page`, `get_command`, `get_api`, `get_service`, `get_state`, `stop_service`. Also `on_plugin_action`, which only sends a fixed message.

=== FILE: int_text.dfy ===
/** Decimal text of integers as Python's `str(int)` writes it and as
    `int(str)` reads it (base 10). */
module IntText {
  import opened Wrappers

  predicate IsDigit(c: char) {
    '0' <= c <= '9'
  }

  function DigitValue(c: char): (d: nat)
    requires IsDigit(c)
    ensures d < 10
  {
    (c as int) - ('0' as int)
  }

  function DigitChar(d: nat): (c: char)
    requires d < 10
    ensures IsDigit(c) && DigitValue(c) == d
  {
    (('0' as int) + d) as char
  }

  /** The whitespace stripped around the argument of `int()` in this model:
      space, tab, line feed, carriage return, vertical tab and form feed.
      Python also strips `\x1c`-`\x1f` and Unicode whitespace. */
  predicate IsSpace(c: char) {
    c == ' ' || c == '\t' || c == '\n' || c == '\r' || c == '\U{000B}' || c == '\U{000C}'
  }

  function TrimStart(s: string): (r: string)
    ensures |r| <= |s|
  {
    if |s| > 0 && IsSpace(s[0]) then TrimStart(s[1..]) else s
  }

  function TrimEnd(s: string): (r: string)
    ensures |r| <= |s|
  {
    if |s| > 0 && IsSpace(s[|s| - 1]) then TrimEnd(s[..|s| - 1]) else s
  }

  /** `s.strip()`: drop leading and trailing whitespace. */
  function Strip(s: string): string {
    TrimEnd(TrimStart(s))
  }

  /** Base-10 digits in Python's literal grammar, read from the right: a
      digit, preceded by nothing, by more such digits, or by an underscore
      that itself follows such digits. */
  predicate ValidDigits(s: string)
    decreases |s|
  {
    && |s| > 0
    && IsDigit(s[|s| - 1])
    && (|s| == 1 || (var p := s[..|s| - 1];
                     if p[|p| - 1] == '_' then |p| > 1 && ValidDigits(p[..|p| - 1]) else ValidDigits(p)))
  }

  /** Only digits and underscores, beginning and ending with a digit. */
  predicate DigitRun(s: string) {
    && |s| > 0 && IsDigit(s[0]) && IsDigit(s[|s| - 1])
    && forall i | 0 <= i < |s| :: IsDigit(s[i]) || s[i] == '_'
  }

  /** What any text `int()` accepts looks like, once stripped: an optional
      sign followed by a run of digits and underscores. */
  predicate NumeralShaped(t: string) {
    DigitRun(t) || (|t| > 1 && (t[0] == '-' || t[0] == '+') && DigitRun(t[1..]))
  }

  lemma {:induction false} ValidDigitsShape(s: string)
    requires ValidDigits(s)
    ensures DigitRun(s)
    decreases |s|
  {
    if |s| > 1 {
      var p := s[..|s| - 1];
      var q := if p[|p| - 1] == '_' then p[..|p| - 1] else p;
      ValidDigitsShape(q);
      assert forall i | 0 <= i < |q| :: s[i] == q[i];
    }
  }

  /** The number the digits denote; underscores are separators only. */
  function DigitsValue(s: string): nat
    requires ValidDigits(s)
    decreases |s|
  {
    var d := DigitValue(s[|s| - 1]);
    if |s| == 1 then d
    else
      var p := s[..|s| - 1];
      if p[|p| - 1] == '_' then DigitsValue(p[..|p| - 1]) * 10 + d else DigitsValue(p) * 10 + d
  }

  /** Python's `int(s)` for a string `s`; `None` is the `ValueError`. Text
      that is not a signed numeral once stripped (a letter, a dot, an inner
      dash or space, a trailing underscore) never parses. */
  function ParseInt(s: string): (r: Option<int>)
    ensures r.Some? ==> |Strip(s)| > 0
    ensures r.Some? ==> NumeralShaped(Strip(s))
  {
    ParseStripped(Strip(s))
  }

  /** `int()` on text that has already lost its surrounding whitespace: an
      optional sign, then digits. */
  function ParseStripped(t: string): (r: Option<int>)
    ensures r.Some? ==> |t| > 0
    ensures r.Some? ==> NumeralShaped(t)
  {
    if |t| > 0 && (t[0] == '-' || t[0] == '+') then
      var body := t[1..];
      if ValidDigits(body) then
        ValidDigitsShape(body);
        var n: int := DigitsValue(body);
        Some(if t[0] == '-' then -n else n)
      else None
    else if ValidDigits(t) then ValidDigitsShape(t); Some(DigitsValue(t))
    else None
  }

  /** Decimal digits of a natural number, most significant first. */
  function NatDigits(n: nat): (r: string)
    ensures |r| > 0
    ensures forall i | 0 <= i < |r| :: IsDigit(r[i])
    ensures r[0] == '0' ==> n == 0
  {
    if n < 10 then [DigitChar(n)] else NatDigits(n / 10) + [DigitChar(n % 10)]
  }

  /** Python's `str(n)` for an integer `n`: its digits with no leading zero
      (a lone `0` for zero), after a `-` when it is negative. */
  function FormatInt(n: int): (r: string)
    ensures |r| > 0
    ensures n >= 0 ==> (forall i | 0 <= i < |r| :: IsDigit(r[i])) && (r[0] == '0' ==> n == 0)
    ensures n < 0 ==>
      && |r| > 1 && r[0] == '-' && r[1] != '0'
      && forall i | 1 <= i < |r| :: IsDigit(r[i])
  {
    if n < 0 then "-" + NatDigits(-n) else NatDigits(n)
  }

  /** Dates, decimals and words are rejected: `int()` raises on them. */
  lemma NonNumeralsFail()
    ensures ParseInt("abc") == None
    ensures ParseInt("2010-07") == None
    ensures ParseInt("12.5") == None
    ensures ParseInt("1_") == None
  {
    assert Strip("abc") == "abc" && !IsDigit("abc"[0]);
    assert Strip("2010-07") == "2010-07" && !IsDigit("2010-07"[4]);
    assert Strip("12.5") == "12.5" && !IsDigit("12.5"[2]);
    assert Strip("1_") == "1_" && !IsDigit("1_"[1]);
  }

  lemma {:induction false} NatDigitsValue(n: nat)
    ensures ValidDigits(NatDigits(n))
    ensures DigitsValue(NatDigits(n)) == n
  {
    var s := NatDigits(n);
    if n >= 10 {
      NatDigitsValue(n / 10);
      var p := NatDigits(n / 10);
      assert s[..|s| - 1] == p;
    }
  }

  /** `int(str(n)) == n`: reading back what `str` wrote gives the number. */
  lemma {:induction false} ParseFormatRoundTrip(n: int)
    ensures ParseInt(FormatInt(n)) == Some(n)
  {
    FormatIntIsStripped(n);
    ParseStrippedFormat(n);
  }

  lemma FormatIntIsStripped(n: int)
    ensures Strip(FormatInt(n)) == FormatInt(n)
  {
  }

  lemma ParseStrippedFormat(n: int)
    ensures ParseStripped(FormatInt(n)) == Some(n)
  {
    var s := FormatInt(n);
    if n < 0 {
      var d := NatDigits(-n);
      NatDigitsValue(-n);
      assert s[0] == '-' && s[1..] == d;
    } else {
      NatDigitsValue(n);
      assert IsDigit(s[0]);
    }
  }

  /** Surrounding whitespace does not change what `int()` reads. */
  lemma {:induction false} ParseIgnoresPadding(pre: string, s: string, post: string)
    requires forall i | 0 <= i < |pre| :: IsSpace(pre[i])
    requires forall i | 0 <= i < |post| :: IsSpace(post[i])
    requires |s| > 0 && !IsSpace(s[0]) && !IsSpace(s[|s| - 1])
    ensures ParseInt(pre + s + post) == ParseInt(s)
  {
    assert pre + s + post == pre + (s + post);
    TrimStartPadded(pre, s + post);
    TrimEndPadded(s, post);
    TrimStartPadded("", s);
    TrimEndPadded(s, "");
    assert "" + s == s + "" == s;
  }

  /** A string holding only whitespace parses to nothing. */
  lemma BlankIsNotANumber(s: string)
    requires forall i | 0 <= i < |s| :: IsSpace(s[i])
    ensures ParseInt(s) == None
  {
    TrimStartPadded(s, "");
    assert s + "" == s;
  }

  lemma {:induction false} TrimStartPadded(pre: string, x: string)
    requires forall i | 0 <= i < |pre| :: IsSpace(pre[i])
    requires |x| > 0 ==> !IsSpace(x[0])
    ensures TrimStart(pre + x) == x
  {
    if |pre| > 0 {
      assert (pre + x)[1..] == pre[1..] + x;
      TrimStartPadded(pre[1..], x);
    }
  }

  lemma {:induction false} TrimEndPadded(x: string, post: string)
    requires forall i | 0 <= i < |post| :: IsSpace(post[i])
    requires |x| > 0 ==> !IsSpace(x[|x| - 1])
    ensures TrimEnd(x + post) == x
  {
    if |post| > 0 {
      assert (x + post)[..|x + post| - 1] == x + post[..|post| - 1];
      TrimEndPadded(x, post[..|post| - 1]);
    } else {
      assert x + post == x;
    }
  }
}

=== FILE: notion_client.dfy ===
/** The Notion gateway's pure parts: the field mapper that turns a media
    dictionary into Notion page properties, and the duplicate check over the
    result of a database query. */
module NotionClient {
  import opened Wrappers
  import opened PyValue

  /** The exception classes that can escape the mapper. */
  datatype PyError = TypeError | AttributeError

  /** A Notion property payload. */
  datatype Prop =
    | Title(content: Value)          // {'title': [{'text': {'content': v}}]}
    | RichText(content: Value)       // {'rich_text': [{'text': {'content': v}}]}
    | Select(name: Value)            // {'select': {'name': v}}
    | Number(n: int)                 // {'number': n}, from int()
    | FloatNumber(source: Value)     // {'number': float(v)}; the float itself is not modelled
    | Files(caption: string, url: string) // {'files': [{'name': caption, 'external': {'url': url}}]}

  /** The Notion properties the mapper can fill. */
  datatype Key =
    | KTitle | KOriginalTitle | KType | KYear | KSeason | KEpisodes
    | KRating | KPoster | KOverview | KTmdbId | KSource

  /** The property's name in the Notion database. */
  function Name(k: Key): string {
    match k
    case KTitle => "标题"
    case KOriginalTitle => "原始标题"
    case KType => "类型"
    case KYear => "年份"
    case KSeason => "季数"
    case KEpisodes => "集数"
    case KRating => "评分"
    case KPoster => "封面"
    case KOverview => "简介"
    case KTmdbId => "TMDB ID"
    case KSource => "数据源"
  }

  /** Distinct keys have distinct names, so the property map is a Python
      dict keyed by these names. */
  lemma NamesAreDistinct(k1: Key, k2: Key)
    requires k1 != k2
    ensures Name(k1) != Name(k2)
  {
  }

  const AllKeys: set<Key> :=
    {KTitle, KOriginalTitle, KType, KYear, KSeason, KEpisodes, KRating, KPoster, KOverview, KTmdbId, KSource}

  /** The property map `build_properties` returns. */
  type Props = map<Key, Prop>

  /** Media type tags (after lower-casing) and the Notion category each
      selects; anything else is filed under `OtherType`. */
  const TypeMapping: map<string, string> := map[
    "movie" := "电影",
    "tv" := "剧集",
    "tv_series" := "剧集",
    "anime" := "动画",
    "电影" := "电影",
    "电视剧" := "剧集"
  ]
  const OtherType := "其他"

  const TmdbImageBase := "https://image.tmdb.org/t/p/w500"
  const OverviewLimit := 2000
  const Ellipsis := "..."
  const DefaultSource := "TMDB"

  // ---------------------------------------------------------------------
  // Gateway results

  /** A page returned by a database query; only its id is used. */
  datatype PageRef = PageRef(id: string)

  /** `query_database`: the query's result list, where `outcome == None`
      is a call that raised inside the SDK. */
  function QueryDatabase(outcome: Option<seq<PageRef>>): (r: seq<PageRef>)
    ensures outcome.None? ==> r == []
    ensures outcome.Some? ==> r == outcome.value
  {
    outcome.GetOr([])
  }

  /** `check_duplicate`: the id of the first page the title query found.
      `outcome` is the outcome of that query. */
  function CheckDuplicate(outcome: Option<seq<PageRef>>): (r: Option<string>)
    ensures r.Some? <==> outcome.Some? && |outcome.value| > 0
    ensures r.Some? ==> r.value == outcome.value[0].id
  {
    var results := QueryDatabase(outcome);
    if |results| > 0 then Some(results[0].id) else None
  }

  // ---------------------------------------------------------------------
  // Source fields: the `or` chains that pick each property's input

  function TitleSource(d: Dict): Value {
    Or(Get(d, "title"), GetOr(d, "name", VStr("")))
  }

  function OriginalTitleSource(d: Dict): Value {
    Or(Get(d, "original_title"), GetOr(d, "original_name", VStr("")))
  }

  function TypeSource(d: Dict): Value {
    Or(Get(d, "media_type"), GetOr(d, "type", VStr("")))
  }

  function SeasonSource(d: Dict): Value {
    Or(Get(d, "season"), Get(d, "season_number"))
  }

  function EpisodesSource(d: Dict): Value {
    Or(Get(d, "total_episodes"), Get(d, "number_of_episodes"))
  }

  function RatingSource(d: Dict): Value {
    Or(Get(d, "vote_average"), Get(d, "rating"))
  }

  function PosterSource(d: Dict): Value {
    Or(Or(Get(d, "poster_path"), Get(d, "poster")), Get(d, "cover_url"))
  }

  function OverviewSource(d: Dict): Value {
    Or(Get(d, "overview"), GetOr(d, "summary", VStr("")))
  }

  function TmdbIdSource(d: Dict): Value {
    Or(Get(d, "tmdb_id"), Get(d, "id"))
  }

  function SourceTag(d: Dict): Value {
    GetOr(d, "source", VStr(DefaultSource))
  }

  // ---------------------------------------------------------------------
  // Per-field conversions

  /** The Notion category of a media type tag. */
  function TypeName(v: Value): (r: string)
    ensures r in TypeMapping.Values || r == OtherType
    ensures Lower(Str(v)) in TypeMapping ==> r == TypeMapping[Lower(Str(v))]
    ensures r == OtherType <==> Lower(Str(v)) !in TypeMapping
  {
    var key := Lower(Str(v));
    if key in TypeMapping then TypeMapping[key] else OtherType
  }

  /** The category does not depend on the case of the tag. */
  lemma TypeNameCaseInsensitive(s: string)
    ensures TypeName(VStr(s)) == TypeName(VStr(Lower(s)))
  {
    LowerIdempotent(s);
  }

  /** An upper-case tag finds its table entry. */
  lemma UpperCaseMovieTypeName()
    ensures TypeName(VStr("MOVIE")) == "电影"
  {
    TypeNameCaseInsensitive("MOVIE");
    assert Lower("MOVIE") == "movie";
    MovieTypeName();
  }

  /** The poster URL: root-relative TMDB paths are made absolute. */
  function PosterUrl(p: string): (r: string)
    ensures |p| > 0 ==> |r| > 0
  {
    if |p| > 0 && p[0] == '/' then TmdbImageBase + p else p
  }

  /** The URL always ends with the path, and it differs from the path exactly
      when the path is root-relative, in which case the TMDB base comes first. */
  lemma PosterUrlShape(p: string)
    ensures var r := PosterUrl(p);
      && |p| <= |r| && r[|r| - |p|..] == p
      && (r != p <==> |p| > 0 && p[0] == '/')
      && (r != p ==> |r| == |TmdbImageBase| + |p| && r[..|TmdbImageBase|] == TmdbImageBase)
  {
  }

  /** An already absolute URL is left alone, so the rewrite is idempotent. */
  lemma PosterUrlIdempotent(p: string)
    ensures PosterUrl(PosterUrl(p)) == PosterUrl(p)
  {
    if |p| > 0 && p[0] == '/' {
      assert PosterUrl(p)[0] == TmdbImageBase[0] == 'h';
    }
  }

  /** Overview text cut to Notion's rich-text limit. */
  function Truncate(s: string): (r: string)
    ensures |r| <= OverviewLimit
    ensures |s| <= OverviewLimit ==> r == s
    ensures |s| > OverviewLimit ==>
      |r| == OverviewLimit && r[..OverviewLimit - 3] == s[..OverviewLimit - 3] && r[OverviewLimit - 3..] == Ellipsis
    ensures |s| > 0 ==> |r| > 0
  {
    if |s| > OverviewLimit then s[..OverviewLimit - 3] + Ellipsis else s
  }

  /** The value the `year` assignment in `build_properties` binds. The conditional binds looser than
      `or`, so the whole `or` is guarded by `first_air_date`: without a truthy
      `first_air_date` the year is `None` even when `year` is set. Slicing a
      `first_air_date` that is not a string raises. */
  function YearCandidate(d: Dict): (r: Result<Value, PyError>)
    ensures !Truthy(Get(d, "first_air_date")) ==> r == Success(VNone)
    ensures Truthy(Get(d, "first_air_date")) && Truthy(Get(d, "year")) ==> r == Success(Get(d, "year"))
    ensures r.Failure? <==> YearRaises(d)
    ensures r.Failure? ==> r.error == TypeError
    ensures r.Success? && Truthy(r.value) ==>
      r.value == Get(d, "year") || (Get(d, "first_air_date").VStr? && r.value == VStr(Prefix(Get(d, "first_air_date").s, 4)))
  {
    var fad := Get(d, "first_air_date");
    if !Truthy(fad) then Success(VNone)
    else if Truthy(Get(d, "year")) then Success(Get(d, "year"))
    else if fad.VStr? then Success(VStr(Prefix(fad.s, 4)))
    else Failure(TypeError)
  }
  /** The reading `year or (first_air_date[:4] if first_air_date else None)`,
      with the conditional grouped around the fallback only. */
  function GroupedYear(d: Dict): Result<Value, PyError> {
    var fad := Get(d, "first_air_date");
    if Truthy(Get(d, "year")) then Success(Get(d, "year"))
    else if !Truthy(fad) then Success(VNone)
    else if fad.VStr? then Success(VStr(Prefix(fad.s, 4)))
    else Failure(TypeError)
  }

  /** The `year` assignment in `build_properties`, as written, differs from the grouped reading exactly when a
      truthy `year` comes without a truthy `first_air_date`: then the code
      drops the year. */
  lemma YearPrecedence(d: Dict)
    ensures YearCandidate(d) != GroupedYear(d) <==>
      Truthy(Get(d, "year")) && !Truthy(Get(d, "first_air_date"))
    ensures YearCandidate(d) != GroupedYear(d) ==>
      YearCandidate(d) == Success(VNone) && GroupedYear(d) == Success(Get(d, "year"))
  {
  }


  /** `int(x)` kept as a number property; a failed conversion is swallowed. */
  function IntProp(v: Value): Option<Prop> {
    if !Truthy(v) then None
    else match ToInt(v)
      case Some(n) => Some(Number(n))
      case None => None
  }

  function YearField(d: Dict): Result<Option<Prop>, PyError> {
    match YearCandidate(d)
    case Success(y) => Success(IntProp(y))
    case Failure(e) => Failure(e)
  }

  function PosterField(d: Dict): Result<Option<Prop>, PyError> {
    var p := PosterSource(d);
    if !Truthy(p) then Success(None)
    else if p.VStr? then Success(Some(Files("封面", PosterUrl(p.s))))
    else Failure(AttributeError)
  }

  function OverviewField(d: Dict): Result<Option<Prop>, PyError> {
    var o := OverviewSource(d);
    if !Truthy(o) then Success(None)
    else if o.VStr? then Success(Some(RichText(VStr(Truncate(o.s)))))
    else Failure(TypeError)
  }

  function When(c: bool, p: Prop): Option<Prop> {
    if c then Some(p) else None
  }

  /** The payload one key receives, for a dictionary the mapper does not
      raise on. */
  function Field(d: Dict, floatOk: Value -> bool, k: Key): Option<Prop> {
    match k
    case KTitle => var v := TitleSource(d); When(Truthy(v), Title(v))
    case KOriginalTitle => var v := OriginalTitleSource(d); When(Truthy(v), RichText(v))
    case KType => var v := TypeSource(d); When(Truthy(v), Select(VStr(TypeName(v))))
    case KYear => (match YearField(d) case Success(o) => o case Failure(_) => None)
    case KSeason => IntProp(SeasonSource(d))
    case KEpisodes => var v := EpisodesSource(d); When(Truthy(v), RichText(VStr(Str(v))))
    case KRating => var v := RatingSource(d); When(Truthy(v) && floatOk(v), FloatNumber(v))
    case KPoster => (match PosterField(d) case Success(o) => o case Failure(_) => None)
    case KOverview => (match OverviewField(d) case Success(o) => o case Failure(_) => None)
    case KTmdbId => var v := TmdbIdSource(d); When(Truthy(v), RichText(VStr(Str(v))))
    case KSource => var v := SourceTag(d); When(Truthy(v), Select(v))
  }

  // ---------------------------------------------------------------------
  // The mapper

  /** The source conditions under which `build_properties` raises. */
  predicate YearRaises(d: Dict) {
    Truthy(Get(d, "first_air_date")) && !Truthy(Get(d, "year")) && !Get(d, "first_air_date").VStr?
  }

  predicate PosterRaises(d: Dict) {
    Truthy(PosterSource(d)) && !PosterSource(d).VStr?
  }

  predicate OverviewRaises(d: Dict) {
    Truthy(OverviewSource(d)) && !OverviewSource(d).VStr?
  }

  predicate Raises(d: Dict) {
    YearRaises(d) || PosterRaises(d) || OverviewRaises(d)
  }

  /** `NotionClient.build_properties`. `floatOk` says which values `float()`
      accepts, for the rating. The exceptions are raised in source order:
      the year slice, then the poster, then the overview. */
  function BuildProperties(d: Dict, floatOk: Value -> bool): (r: Result<Props, PyError>)
    ensures r.Failure? <==> Raises(d)
    ensures r.Failure? ==>
      r.error == if YearRaises(d) then TypeError else if PosterRaises(d) then AttributeError else TypeError
  {
    var year := YearField(d);
    var poster := PosterField(d);
    var overview := OverviewField(d);
    if year.Failure? then Failure(year.error)
    else if poster.Failure? then Failure(poster.error)
    else if overview.Failure? then Failure(overview.error)
    else Success(map k | k in AllKeys && Field(d, floatOk, k).Some? :: Field(d, floatOk, k).value)
  }

  // ---------------------------------------------------------------------
  // What the mapper promises, key by key

  /** `标题` is `title`, else `name`, and appears only when one is truthy. */
  lemma TitleRule(d: Dict, floatOk: Value -> bool)
    requires BuildProperties(d, floatOk).Success?
    ensures var r := BuildProperties(d, floatOk).value;
      && (KTitle in r <==> Truthy(Get(d, "title")) || Truthy(GetOr(d, "name", VStr(""))))
      && (KTitle in r ==>
            r[KTitle] == Title(if Truthy(Get(d, "title")) then d["title"] else d["name"]))
  {
  }

  /** `原始标题` is `original_title`, else `original_name`. */
  lemma OriginalTitleRule(d: Dict, floatOk: Value -> bool)
    requires BuildProperties(d, floatOk).Success?
    ensures var r := BuildProperties(d, floatOk).value;
      && (KOriginalTitle in r <==>
            Truthy(Get(d, "original_title")) || Truthy(GetOr(d, "original_name", VStr(""))))
      && (KOriginalTitle in r ==>
            r[KOriginalTitle] ==
              RichText(if Truthy(Get(d, "original_title")) then d["original_title"] else d["original_name"]))
  {
  }

  /** `类型` is the table entry for the lower-cased `media_type` (else
      `type`), `其他` for a tag the table does not know. */
  lemma TypeRule(d: Dict, floatOk: Value -> bool)
    requires BuildProperties(d, floatOk).Success?
    ensures var r := BuildProperties(d, floatOk).value;
      var tag := if Truthy(Get(d, "media_type")) then d["media_type"] else GetOr(d, "type", VStr(""));
      var key := Lower(Str(tag));
      && (KType in r <==> Truthy(Get(d, "media_type")) || Truthy(GetOr(d, "type", VStr(""))))
      && (KType in r ==>
            r[KType] == Select(VStr(if key in TypeMapping then TypeMapping[key] else OtherType)))
  {
  }

  /** `年份` needs a truthy `first_air_date`; it is then `int(year)`, or
      `int(first_air_date[:4])` when `year` is falsy, and it is left out when
      that conversion fails. */
  lemma YearRule(d: Dict, floatOk: Value -> bool)
    requires BuildProperties(d, floatOk).Success?
    ensures var r := BuildProperties(d, floatOk).value;
      var fad := Get(d, "first_air_date");
      && (KYear in r ==> Truthy(fad))
      && (Truthy(fad) ==>
            var y := if Truthy(Get(d, "year")) then d["year"] else VStr(Prefix(fad.s, 4));
            && (KYear in r <==> ToInt(y).Some?)
            && (KYear in r ==> r[KYear] == Number(ToInt(y).value)))
  {
  }

  /** A plain `year` without `first_air_date` yields no `年份`. */
  lemma YearNeedsFirstAirDate(d: Dict, floatOk: Value -> bool)
    requires "first_air_date" !in d
    ensures !YearRaises(d)
    ensures BuildProperties(d, floatOk).Success? ==> KYear !in BuildProperties(d, floatOk).value
  {
  }

  /** `季数` is `int(season)` (else `season_number`); a falsy season, such as
      `0`, and a failed conversion both leave it out. */
  lemma SeasonRule(d: Dict, floatOk: Value -> bool)
    requires BuildProperties(d, floatOk).Success?
    ensures var r := BuildProperties(d, floatOk).value;
      var season := if Truthy(Get(d, "season")) then d["season"] else Get(d, "season_number");
      && (KSeason in r <==> Truthy(season) && ToInt(season).Some?)
      && (KSeason in r ==> r[KSeason] == Number(ToInt(season).value))
  {
  }

  /** Failed integer conversions are swallowed: whether the mapper raises
      does not depend on the year or season text being a number. */
  lemma CoercionFailureIsSwallowed(d: Dict, floatOk: Value -> bool, year: Value, season: Value)
    requires !Raises(d)
    requires Truthy(year) && Truthy(season)
    ensures var d' := d["year" := year]["season" := season];
      && BuildProperties(d', floatOk).Success?
      && (ToInt(season).None? ==> KSeason !in BuildProperties(d', floatOk).value)
      && (ToInt(year).None? ==> KYear !in BuildProperties(d', floatOk).value)
  {
  }

  /** `集数` is `str()` of `total_episodes`, else `number_of_episodes`. */
  lemma EpisodesRule(d: Dict, floatOk: Value -> bool)
    requires BuildProperties(d, floatOk).Success?
    ensures var r := BuildProperties(d, floatOk).value;
      var e := if Truthy(Get(d, "total_episodes")) then d["total_episodes"] else Get(d, "number_of_episodes");
      && (KEpisodes in r <==> Truthy(e))
      && (KEpisodes in r ==> r[KEpisodes] == RichText(VStr(Str(e))))
  {
  }

  /** `评分` is `float(vote_average)` (else `rating`) when that converts. */
  lemma RatingRule(d: Dict, floatOk: Value -> bool)
    requires BuildProperties(d, floatOk).Success?
    ensures var r := BuildProperties(d, floatOk).value;
      var v := if Truthy(Get(d, "vote_average")) then d["vote_average"] else Get(d, "rating");
      && (KRating in r <==> Truthy(v) && floatOk(v))
      && (KRating in r ==> r[KRating] == FloatNumber(v))
  {
  }

  /** `封面` takes `poster_path`, else `poster`, else `cover_url`, and makes a
      root-relative path absolute. */
  lemma PosterRule(d: Dict, floatOk: Value -> bool)
    requires BuildProperties(d, floatOk).Success?
    ensures var r := BuildProperties(d, floatOk).value;
      var pp := Get(d, "poster_path");
      var po := Get(d, "poster");
      var p := if Truthy(pp) then pp else if Truthy(po) then po else Get(d, "cover_url");
      && (KPoster in r <==> Truthy(pp) || Truthy(po) || Truthy(Get(d, "cover_url")))
      && (KPoster in r ==>
            && p.VStr? && |p.s| > 0
            && r[KPoster] == Files("封面", PosterUrl(p.s)))
  {
  }

  /** `简介` is `overview` (else `summary`), kept whole up to 2000
      characters and otherwise cut to its first 1997 followed by `...`. */
  lemma OverviewRule(d: Dict, floatOk: Value -> bool)
    requires BuildProperties(d, floatOk).Success?
    ensures var r := BuildProperties(d, floatOk).value;
      var o := if Truthy(Get(d, "overview")) then d["overview"] else GetOr(d, "summary", VStr(""));
      && (KOverview in r <==> Truthy(Get(d, "overview")) || Truthy(GetOr(d, "summary", VStr(""))))
      && (KOverview in r ==>
            && o.VStr?
            && r[KOverview].RichText? && r[KOverview].content.VStr?
            && var c := r[KOverview].content.s;
            && |c| <= 2000
            && (|o.s| <= 2000 ==> c == o.s)
            && (|o.s| > 2000 ==> |c| == 2000 && c[..1997] == o.s[..1997] && c[1997..] == "..."))
  {
  }

  /** `TMDB ID` is `str()` of `tmdb_id`, else `id`. */
  lemma TmdbIdRule(d: Dict, floatOk: Value -> bool)
    requires BuildProperties(d, floatOk).Success?
    ensures var r := BuildProperties(d, floatOk).value;
      var t := if Truthy(Get(d, "tmdb_id")) then d["tmdb_id"] else Get(d, "id");
      && (KTmdbId in r <==> Truthy(t))
      && (KTmdbId in r ==> r[KTmdbId] == RichText(VStr(Str(t))))
  {
  }

  /** `数据源` defaults to `TMDB` when `source` is missing, carries a truthy
      `source` as given, and is left out only for a present but falsy one. */
  lemma SourceRule(d: Dict, floatOk: Value -> bool)
    requires BuildProperties(d, floatOk).Success?
    ensures var r := BuildProperties(d, floatOk).value;
      && ("source" !in d ==> KSource in r && r[KSource] == Select(VStr("TMDB")))
      && ("source" in d && Truthy(d["source"]) ==> KSource in r && r[KSource] == Select(d["source"]))
      && ("source" in d && !Truthy(d["source"]) ==> KSource !in r)
  {
  }

  /** A payload that carries something: no key is emitted with a null or
      empty value. */
  predicate Carries(p: Prop) {
    match p
    case Title(v) => Truthy(v)
    case RichText(v) => Truthy(v)
    case Select(v) => Truthy(v)
    case Number(_) => true
    case FloatNumber(v) => Truthy(v)
    case Files(_, url) => |url| > 0
  }

  lemma NoEmptyPayload(d: Dict, floatOk: Value -> bool)
    requires forall k | k in d :: WellFormed(d[k])
    requires BuildProperties(d, floatOk).Success?
    ensures var r := BuildProperties(d, floatOk).value;
      forall k | k in r :: Carries(r[k])
  {
    var r := BuildProperties(d, floatOk).value;
    forall k | k in r
      ensures Carries(r[k])
    {
      FieldCarries(d, floatOk, k);
    }
  }

  lemma FieldCarries(d: Dict, floatOk: Value -> bool, k: Key)
    requires forall k | k in d :: WellFormed(d[k])
    ensures Field(d, floatOk, k).Some? ==> Carries(Field(d, floatOk, k).value)
  {
    match k
    case KEpisodes =>
      var v := EpisodesSource(d);
      if Truthy(v) { StrOfTruthyIsNonEmpty(v); }
    case KTmdbId =>
      var v := TmdbIdSource(d);
      if Truthy(v) { StrOfTruthyIsNonEmpty(v); }
    case _ =>
  }

  /** A movie record with a title, a type, a year and a TMDB id but no
      `first_air_date`: the code gives it no `年份`. */
  const InceptionRecord: Dict :=
    map["title" := VStr("Inception"), "type" := VStr("movie"), "year" := VInt(2010), "tmdb_id" := VInt(27205)]

  const InceptionProps: Props :=
    map[KTitle := Title(VStr("Inception")), KType := Select(VStr("电影")),
        KTmdbId := RichText(VStr("27205")), KSource := Select(VStr("TMDB"))]

  lemma InceptionExample(floatOk: Value -> bool)
    ensures BuildProperties(InceptionRecord, floatOk) == Success(InceptionProps)
    ensures KYear !in InceptionProps && KSeason !in InceptionProps
  {
    InceptionFields(floatOk);
    PropsFromFields(InceptionRecord, floatOk, InceptionProps);
  }

  lemma InceptionFields(floatOk: Value -> bool)
    ensures !Raises(InceptionRecord)
    ensures forall k | k in AllKeys :: Agrees(InceptionRecord, floatOk, InceptionProps, k)
  {
    InceptionAgreesPresent(floatOk);
    InceptionAgreesAbsent(floatOk);
    forall k | k in AllKeys
      ensures Agrees(InceptionRecord, floatOk, InceptionProps, k)
    {
      match k
      case KTitle =>
      case KOriginalTitle =>
      case KType =>
      case KYear =>
      case KSeason =>
      case KEpisodes =>
      case KRating =>
      case KPoster =>
      case KOverview =>
      case KTmdbId =>
      case KSource =>
    }
  }

  /** The key `k` gets exactly the payload `expected` lists for it, or none
      when `expected` lacks it. */
  predicate Agrees(d: Dict, floatOk: Value -> bool, expected: Props, k: Key) {
    Field(d, floatOk, k) == if k in expected then Some(expected[k]) else None
  }

  /** The four properties the example record carries. */
  lemma InceptionAgreesPresent(floatOk: Value -> bool)
    ensures !Raises(InceptionRecord)
    ensures Agrees(InceptionRecord, floatOk, InceptionProps, KTitle)
    ensures Agrees(InceptionRecord, floatOk, InceptionProps, KType)
    ensures Agrees(InceptionRecord, floatOk, InceptionProps, KTmdbId)
    ensures Agrees(InceptionRecord, floatOk, InceptionProps, KSource)
  {
    InceptionTitleAndType(floatOk);
    InceptionIdAndSource(floatOk);
  }

  /** The seven properties it lacks. */
  lemma InceptionAgreesAbsent(floatOk: Value -> bool)
    ensures Agrees(InceptionRecord, floatOk, InceptionProps, KOriginalTitle)
    ensures Agrees(InceptionRecord, floatOk, InceptionProps, KYear)
    ensures Agrees(InceptionRecord, floatOk, InceptionProps, KSeason)
    ensures Agrees(InceptionRecord, floatOk, InceptionProps, KEpisodes)
    ensures Agrees(InceptionRecord, floatOk, InceptionProps, KRating)
    ensures Agrees(InceptionRecord, floatOk, InceptionProps, KPoster)
    ensures Agrees(InceptionRecord, floatOk, InceptionProps, KOverview)
  {
    InceptionNoTextFields(floatOk);
    InceptionNoNumberFields(floatOk);
  }

  /** Every key is one of the eleven properties. */
  lemma AllKeysComplete(k: Key)
    ensures k in AllKeys
  {
    match k
    case KTitle =>
    case KOriginalTitle =>
    case KType =>
    case KYear =>
    case KSeason =>
    case KEpisodes =>
    case KRating =>
    case KPoster =>
    case KOverview =>
    case KTmdbId =>
    case KSource =>
  }

  /** A dictionary the mapper does not raise on maps to exactly the payloads
      its fields produce. */
  lemma PropsFromFields(d: Dict, floatOk: Value -> bool, expected: Props)
    requires !Raises(d)
    requires forall k | k in AllKeys :: Agrees(d, floatOk, expected, k)
    ensures BuildProperties(d, floatOk) == Success(expected)
  {
    var r := BuildProperties(d, floatOk).value;
    forall k: Key
      ensures k in r <==> k in expected
      ensures k in r ==> r[k] == expected[k]
    {
      AllKeysComplete(k);
    }
    assert r == expected;
  }

  lemma InceptionTitleAndType(floatOk: Value -> bool)
    ensures Field(InceptionRecord, floatOk, KTitle) == Some(Title(VStr("Inception")))
    ensures Field(InceptionRecord, floatOk, KType) == Some(Select(VStr("电影")))
  {
    InceptionSources();
    MovieTypeName();
  }

  lemma InceptionIdAndSource(floatOk: Value -> bool)
    ensures !Raises(InceptionRecord)
    ensures Field(InceptionRecord, floatOk, KTmdbId) == Some(RichText(VStr("27205")))
    ensures Field(InceptionRecord, floatOk, KSource) == Some(Select(VStr("TMDB")))
  {
    InceptionSources();
    TmdbIdText();
  }

  /** What each `or` chain picks from the example record. */
  lemma InceptionSources()
    ensures TitleSource(InceptionRecord) == VStr("Inception")
    ensures TypeSource(InceptionRecord) == VStr("movie")
    ensures TmdbIdSource(InceptionRecord) == VInt(27205)
    ensures SourceTag(InceptionRecord) == VStr("TMDB")
    ensures Get(InceptionRecord, "first_air_date") == VNone
    ensures !Truthy(PosterSource(InceptionRecord))
    ensures !Truthy(OverviewSource(InceptionRecord))
  {
  }

  lemma MovieTypeName()
    ensures TypeName(VStr("movie")) == "电影"
  {
    assert Lower("movie") == "movie";
  }

  lemma TmdbIdText()
    ensures Str(VInt(27205)) == "27205"
  {
  }

  lemma InceptionNoTextFields(floatOk: Value -> bool)
    ensures Field(InceptionRecord, floatOk, KOriginalTitle) == None
    ensures Field(InceptionRecord, floatOk, KEpisodes) == None
    ensures Field(InceptionRecord, floatOk, KPoster) == None
    ensures Field(InceptionRecord, floatOk, KOverview) == None
  {
    InceptionSources();
    InceptionAbsentSources();
  }

  lemma InceptionNoNumberFields(floatOk: Value -> bool)
    ensures Field(InceptionRecord, floatOk, KYear) == None
    ensures Field(InceptionRecord, floatOk, KSeason) == None
    ensures Field(InceptionRecord, floatOk, KRating) == None
  {
    InceptionSources();
    InceptionAbsentSources();
  }

  lemma InceptionAbsentSources()
    ensures !Truthy(OriginalTitleSource(InceptionRecord))
    ensures !Truthy(SeasonSource(InceptionRecord))
    ensures !Truthy(EpisodesSource(InceptionRecord))
    ensures !Truthy(RatingSource(InceptionRecord))
  {
  }
}

=== FILE: plugin.dfy ===
/** The plugin object: its configuration, the media record it builds from a
    host event, the connection-test endpoint, and the transfer-complete
    handler as a step function. Gateway calls are oracle inputs: the outcome
    of the duplicate query and the id `create_page` returned. The current time
    and the host's API token are parameters. */
module Plugin {
  import opened Wrappers
  import opened PyValue
  import opened IntText
  import opened NotionClient
  import opened SyncHistory

  /** The settings `init_plugin` reads. */
  datatype Config = Config(enabled: bool, notify: bool, skipExisting: bool, mediaTypes: seq<string>)

  /** `mediainfo.type`: no such attribute, an attribute holding `None`, or
      an enum member with the given `.value`. */
  datatype MediaKind = NoKind | NullKind | Kind(value: Value)

  /** The host's media object, as far as the plugin reads it. An `Option`
      field is one read with `getattr` and a default (`None` when the object
      lacks it); `posterImage` is what `get_poster_image()` returns, `None`
      when there is no such method. */
  datatype MediaInfo = MediaInfo(
    title: Value,
    originalTitle: Option<Value>,
    year: Value,
    kind: MediaKind,
    tmdbId: Value,
    voteAverage: Option<Value>,
    overview: Option<Value>,
    posterImage: Option<Value>,
    numberOfEpisodes: Option<Value>,
    numberOfSeasons: Option<Value>)

  /** The event payload, when it is not empty. */
  datatype EventData = EventData(mediainfo: Option<MediaInfo>)

  /** The keys `_build_media_data` fills. */
  const MediaDataKeys: set<string> :=
    {"title", "original_title", "year", "type", "media_type", "tmdb_id", "vote_average",
     "overview", "poster", "number_of_episodes", "number_of_seasons", "source"}

  /** `mediainfo.type.value`, or `''` without a `type` attribute; reading
      `.value` of `None` raises. */
  function KindValue(k: MediaKind): (r: Result<Value, PyError>)
    ensures r.Failure? <==> k.NullKind?
    ensures k.NoKind? ==> r == Success(VStr(""))
    ensures k.Kind? ==> r == Success(k.value)
  {
    match k
    case NoKind => Success(VStr(""))
    case NullKind => Failure(AttributeError)
    case Kind(v) => Success(v)
  }

  /** `_build_media_data(mediainfo, transferinfo)`: a fixed copy of the
      media object's fields; `transferinfo` contributes nothing. */
  function BuildMediaData(mi: Option<MediaInfo>): (r: Result<Dict, PyError>)
    ensures r.Failure? <==> mi.Some? && mi.value.kind.NullKind?
    ensures mi.None? ==> r == Success(map[])
    ensures r.Success? && mi.Some? ==>
      && r.value.Keys == MediaDataKeys
      && r.value["title"] == mi.value.title
      && r.value["year"] == mi.value.year
      && r.value["tmdb_id"] == mi.value.tmdbId
      && r.value["type"] == KindValue(mi.value.kind).value
      && r.value["type"] == r.value["media_type"]
      && r.value["source"] == VStr("TMDB")
    ensures r.Success? && mi.Some? ==>
      && r.value["original_title"] == mi.value.originalTitle.GetOr(VStr(""))
      && r.value["vote_average"] == mi.value.voteAverage.GetOr(VNone)
      && r.value["overview"] == mi.value.overview.GetOr(VStr(""))
      && r.value["poster"] == mi.value.posterImage.GetOr(VStr(""))
      && r.value["number_of_episodes"] == mi.value.numberOfEpisodes.GetOr(VNone)
      && r.value["number_of_seasons"] == mi.value.numberOfSeasons.GetOr(VNone)
  {
    if mi.None? then Success(map[])
    else
      var m := mi.value;
      match KindValue(m.kind)
      case Failure(e) => Failure(e)
      case Success(t) =>
        Success(map[
          "title" := m.title,
          "original_title" := m.originalTitle.GetOr(VStr("")),
          "year" := m.year,
          "type" := t,
          "media_type" := t,
          "tmdb_id" := m.tmdbId,
          "vote_average" := m.voteAverage.GetOr(VNone),
          "overview" := m.overview.GetOr(VStr("")),
          "poster" := m.posterImage.GetOr(VStr("")),
          "number_of_episodes" := m.numberOfEpisodes.GetOr(VNone),
          "number_of_seasons" := m.numberOfSeasons.GetOr(VNone),
          "source" := VStr("TMDB")])
  }

  const ConnectedPrefix := "连接成功，数据库中有 "
  const ConnectedSuffix := " 条记录"
  const ClientMissing := "Notion客户端未初始化"

  /** `test_connection(apikey)`: `query` is the outcome of the unfiltered
      database query. */
  function TestConnection(apikey: string, token: string, clientReady: bool, query: Option<seq<PageRef>>)
    : (r: Response)
    ensures r.success <==> apikey == token && clientReady
    ensures apikey != token ==> r == Response(false, WrongApiKey)
    ensures apikey == token && !clientReady ==> r == Response(false, ClientMissing)
    ensures r.success ==>
      && |ConnectedPrefix| + |ConnectedSuffix| < |r.message|
      && r.message[..|ConnectedPrefix|] == ConnectedPrefix
      && r.message[|r.message| - |ConnectedSuffix|..] == ConnectedSuffix
  {
    if apikey != token then Response(false, WrongApiKey)
    else if !clientReady then Response(false, ClientMissing)
    else Response(true, ConnectedPrefix + FormatInt(|QueryDatabase(query)|) + ConnectedSuffix)
  }

  /** The success message reports the number of records the query found,
      and a failed query reports zero. */
  lemma ConnectionCountReadsBack(apikey: string, token: string, query: Option<seq<PageRef>>)
    requires apikey == token
    ensures var m := TestConnection(apikey, token, true, query).message;
      ParseInt(m[|ConnectedPrefix|..|m| - |ConnectedSuffix|]) == Some(|QueryDatabase(query)|)
    ensures query.None? ==> QueryDatabase(query) == []
  {
    var n := |QueryDatabase(query)|;
    var m := TestConnection(apikey, token, true, query).message;
    assert m == ConnectedPrefix + FormatInt(n) + ConnectedSuffix;
    assert m[|ConnectedPrefix|..|m| - |ConnectedSuffix|] == FormatInt(n);
    ParseFormatRoundTrip(n);
  }

  // ---------------------------------------------------------------------
  // on_transfer_complete

  /** What the gateway answers during one event: the outcome of the duplicate
      query by title (`None` when it raised) and the id `create_page`
      returned (`None` when it failed). */
  datatype Gateway = Gateway(duplicateQuery: Option<seq<PageRef>>, created: Option<string>)

  /** The notification sent after a successful sync. */
  datatype Notice = Notice(text: string, image: Value)

  datatype Outcome =
    | Ignored             // returned before doing anything
    | Raised(error: PyError)  // an exception escaped the handler
    | Skipped             // a page with the same title already exists
    | Synced(pageId: string)
    | SyncFailed

  /** The effect of one event: how it ended, the stored history afterwards,
      the properties passed to `create_page` if it was called, and the
      notification if one was sent. */
  datatype Step = Step(outcome: Outcome, history: seq<Entry>, created: Option<Props>, notice: Option<Notice>)

  /** The lower-cased media type the allow-list is checked against. */
  function MediaTypeTag(mi: MediaInfo): (r: Result<string, PyError>)
    ensures r.Failure? <==> mi.kind.NullKind?
    ensures mi.kind.NoKind? ==> r == Success("")
    ensures mi.kind.Kind? ==> r == Success(Lower(Str(mi.kind.value)))
    ensures r.Success? ==> Lower(r.value) == r.value
  {
    match KindValue(mi.kind)
    case Failure(e) => Failure(e)
    case Success(v) =>
      if mi.kind.NoKind? then Success("")
      else LowerIdempotent(Str(v)); Success(Lower(Str(v)))
  }

  /** The event reaches the sync part of the handler. A non-empty allow-list
      is matched against the lower-cased tag, so only its lower-case entries
      can ever admit an event. */
  function PassesGuards(cfg: Config, clientReady: bool, event: Option<EventData>): (r: bool)
    ensures r ==>
      && cfg.enabled && clientReady && event.Some? && event.value.mediainfo.Some?
      && !event.value.mediainfo.value.kind.NullKind?
    ensures r && |cfg.mediaTypes| > 0 ==>
      var tag := MediaTypeTag(event.value.mediainfo.value).value;
      tag in cfg.mediaTypes && Lower(tag) == tag
  {
    && cfg.enabled && clientReady
    && event.Some? && event.value.mediainfo.Some?
    && var tag := MediaTypeTag(event.value.mediainfo.value);
       tag.Success? && (|cfg.mediaTypes| == 0 || tag.value in cfg.mediaTypes)
  }

  /** Changing the case of a string media type never changes whether the
      event gets through. */
  lemma AllowListIgnoresCase(cfg: Config, clientReady: bool, mi: MediaInfo, s: string)
    requires mi.kind == Kind(VStr(s))
    ensures PassesGuards(cfg, clientReady, Some(EventData(Some(mi))))
      == PassesGuards(cfg, clientReady, Some(EventData(Some(mi.(kind := Kind(VStr(Lower(s))))))))
  {
    LowerIdempotent(s);
  }

  /** An allow-list whose every entry has an upper-case letter admits no
      event at all. */
  lemma UpperCaseAllowListBlocksAll(cfg: Config, clientReady: bool, event: Option<EventData>)
    requires |cfg.mediaTypes| > 0
    requires forall t | t in cfg.mediaTypes :: Lower(t) != t
    ensures !PassesGuards(cfg, clientReady, event)
  {
  }

  /** A page id the handler treats as present: Python's truthiness of the
      returned string. */
  predicate HasId(id: Option<string>) {
    id.Some? && |id.value| > 0
  }

  /** `on_transfer_complete(event)` against the stored history `h`; `now` is
      the formatted current time and `floatOk` says which values `float()`
      accepts. */
  function OnTransferComplete(
    cfg: Config, clientReady: bool, event: Option<EventData>, gw: Gateway,
    floatOk: Value -> bool, h: seq<Entry>, now: string): (s: Step)
    ensures !PassesGuards(cfg, clientReady, event) && !s.outcome.Raised? ==> s == Step(Ignored, h, None, None)
    ensures s.outcome.Ignored? || s.outcome.Raised? ==> s.history == h && s.created.None? && s.notice.None?
    ensures s.outcome.Skipped? || s.outcome.Synced? || s.outcome.SyncFailed? ==>
      && PassesGuards(cfg, clientReady, event)
      && |s.history| == (if |h| < MaxEntries then |h| + 1 else MaxEntries)
      && s.history[|s.history| - 1].status == (if s.outcome.Skipped? then "skipped"
                                               else if s.outcome.Synced? then "success" else "failed")
    ensures s.outcome.Skipped? <==>
      PassesGuards(cfg, clientReady, event) && cfg.skipExisting && HasId(CheckDuplicate(gw.duplicateQuery))
    ensures s.created.Some? <==> s.outcome.Synced? || s.outcome.SyncFailed?
    ensures s.outcome.Synced? <==> s.created.Some? && HasId(gw.created)
    ensures s.outcome.Synced? ==>
      s.outcome.pageId == gw.created.value && s.history[|s.history| - 1].pageId == gw.created.value
    ensures s.notice.Some? ==> s.outcome.Synced? && cfg.notify
  {
    if !cfg.enabled || !clientReady then Step(Ignored, h, None, None)
    else if event.None? then Step(Ignored, h, None, None)
    else if event.value.mediainfo.None? then Step(Ignored, h, None, None)
    else
      var mi := event.value.mediainfo.value;
      match MediaTypeTag(mi)
      case Failure(e) => Step(Raised(e), h, None, None)
      case Success(tag) =>
        if |cfg.mediaTypes| > 0 && tag !in cfg.mediaTypes then Step(Ignored, h, None, None)
        else match BuildMediaData(Some(mi))
          case Failure(e) => Step(Raised(e), h, None, None)
          case Success(data) =>
            var title := GetOr(data, "title", VStr("未知"));
            if cfg.skipExisting && HasId(CheckDuplicate(gw.duplicateQuery)) then
              Step(Skipped, SaveHistory(h, data, None, "skipped", now), None, None)
            else match BuildProperties(data, floatOk)
              case Failure(e) => Step(Raised(e), h, None, None)
              case Success(props) =>
                if HasId(gw.created) then
                  var notice := if cfg.notify then Some(Notice("已同步: " + Str(title), Get(data, "poster"))) else None;
                  Step(Synced(gw.created.value), SaveHistory(h, data, gw.created, "success", now), Some(props), notice)
                else
                  Step(SyncFailed, SaveHistory(h, data, None, "failed", now), Some(props), None)
  }

  // ---------------------------------------------------------------------
  // What the handler promises

  /** Past the guards the event always gets somewhere: it raises, or it is
      recorded. A recorded event appends exactly one entry to the old history
      and trims it, and a created page carries exactly the properties the
      mapper computes from the media record. */
  lemma HandlerEffects(
    cfg: Config, clientReady: bool, event: Option<EventData>, gw: Gateway,
    floatOk: Value -> bool, h: seq<Entry>, now: string)
    ensures var s := OnTransferComplete(cfg, clientReady, event, gw, floatOk, h, now);
      && (PassesGuards(cfg, clientReady, event) ==> !s.outcome.Ignored?)
      && (s.outcome.Skipped? || s.outcome.Synced? || s.outcome.SyncFailed? ==>
            s.history == Append(h, s.history[|s.history| - 1]))
      && (s.created.Some? ==>
            && event.Some? && event.value.mediainfo.Some?
            && BuildMediaData(event.value.mediainfo).Success?
            && BuildProperties(BuildMediaData(event.value.mediainfo).value, floatOk) == Success(s.created.value))
  {
    if PassesGuards(cfg, clientReady, event) {
      PastGuardsNotIgnored(cfg, clientReady, event, gw, floatOk, h, now);
    }
    RecordingAppendsOne(cfg, clientReady, event, gw, floatOk, h, now);
    CreatedPropsAreMapped(cfg, clientReady, event, gw, floatOk, h, now);
  }

  lemma PastGuardsNotIgnored(
    cfg: Config, clientReady: bool, event: Option<EventData>, gw: Gateway,
    floatOk: Value -> bool, h: seq<Entry>, now: string)
    requires PassesGuards(cfg, clientReady, event)
    ensures !OnTransferComplete(cfg, clientReady, event, gw, floatOk, h, now).outcome.Ignored?
  {
  }

  lemma RecordingAppendsOne(
    cfg: Config, clientReady: bool, event: Option<EventData>, gw: Gateway,
    floatOk: Value -> bool, h: seq<Entry>, now: string)
    ensures var s := OnTransferComplete(cfg, clientReady, event, gw, floatOk, h, now);
      s.outcome.Skipped? || s.outcome.Synced? || s.outcome.SyncFailed? ==>
        s.history == Append(h, s.history[|s.history| - 1])
  {
  }

  lemma CreatedPropsAreMapped(
    cfg: Config, clientReady: bool, event: Option<EventData>, gw: Gateway,
    floatOk: Value -> bool, h: seq<Entry>, now: string)
    ensures var s := OnTransferComplete(cfg, clientReady, event, gw, floatOk, h, now);
      s.created.Some? ==>
        && event.Some? && event.value.mediainfo.Some?
        && BuildMediaData(event.value.mediainfo).Success?
        && BuildProperties(BuildMediaData(event.value.mediainfo).value, floatOk) == Success(s.created.value)
  {
  }

  /** Each early return leaves everything as it was: no history entry, no
      create call, no notification. */
  lemma GuardsHaveNoEffect(
    cfg: Config, clientReady: bool, event: Option<EventData>, gw: Gateway,
    floatOk: Value -> bool, h: seq<Entry>, now: string)
    requires
      || !cfg.enabled
      || !clientReady
      || event.None?
      || event.value.mediainfo.None?
      || (var tag := MediaTypeTag(event.value.mediainfo.value);
          tag.Success? && |cfg.mediaTypes| > 0 && tag.value !in cfg.mediaTypes)
    ensures OnTransferComplete(cfg, clientReady, event, gw, floatOk, h, now) == Step(Ignored, h, None, None)
  {
  }

  /** The record the handler maps, seen through the mapper's `or` chains. */
  lemma MediaDataSources(mi: MediaInfo)
    requires !mi.kind.NullKind?
    ensures var d := BuildMediaData(Some(mi)).value;
      && "first_air_date" !in d && "season" !in d && "season_number" !in d
      && "poster_path" !in d && "cover_url" !in d && "summary" !in d && "name" !in d
      && (Truthy(TitleSource(d)) <==> Truthy(mi.title))
      && (Truthy(mi.title) ==> TitleSource(d) == mi.title)
      && (Truthy(PosterSource(d)) <==> Truthy(mi.posterImage.GetOr(VStr(""))))
      && (Truthy(PosterSource(d)) ==> PosterSource(d) == mi.posterImage.GetOr(VStr("")))
      && (Truthy(OverviewSource(d)) <==> Truthy(mi.overview.GetOr(VStr(""))))
      && (Truthy(OverviewSource(d)) ==> OverviewSource(d) == mi.overview.GetOr(VStr("")))
      && SourceTag(d) == VStr("TMDB")
  {
    MediaDataAbsentKeys(mi);
    var d := BuildMediaData(Some(mi)).value;
    assert d["poster"] == mi.posterImage.GetOr(VStr(""));
    assert d["overview"] == mi.overview.GetOr(VStr(""));
  }

  lemma MediaDataAbsentKeys(mi: MediaInfo)
    requires !mi.kind.NullKind?
    ensures var d := BuildMediaData(Some(mi)).value;
      && "first_air_date" !in d && "season" !in d && "season_number" !in d
      && "poster_path" !in d && "cover_url" !in d && "summary" !in d && "name" !in d
  {
    var d := BuildMediaData(Some(mi)).value;
    assert d.Keys == MediaDataKeys;
    YearAndSeasonKeysNotCopied();
    FallbackKeysNotCopied();
  }

  /** The mapper reads the year and season from keys the record lacks. */
  lemma YearAndSeasonKeysNotCopied()
    ensures "first_air_date" !in MediaDataKeys
    ensures "season" !in MediaDataKeys
    ensures "season_number" !in MediaDataKeys
  {
  }

  lemma FallbackKeysNotCopied()
    ensures "poster_path" !in MediaDataKeys
    ensures "cover_url" !in MediaDataKeys
    ensures "summary" !in MediaDataKeys
    ensures "name" !in MediaDataKeys
  {
  }

  /** A page the handler creates never has `年份` (the record has `year` but
      no `first_air_date`) nor `季数` (the record has `number_of_seasons`,
      which the mapper does not read), and is always tagged `TMDB`. */
  lemma CreatedPagesLackYearAndSeason(
    cfg: Config, clientReady: bool, event: Option<EventData>, gw: Gateway,
    floatOk: Value -> bool, h: seq<Entry>, now: string)
    ensures var s := OnTransferComplete(cfg, clientReady, event, gw, floatOk, h, now);
      s.created.Some? ==>
        && KYear !in s.created.value
        && KSeason !in s.created.value
        && KSource in s.created.value && s.created.value[KSource] == Select(VStr("TMDB"))
  {
    var s := OnTransferComplete(cfg, clientReady, event, gw, floatOk, h, now);
    if s.created.Some? {
      var mi := event.value.mediainfo.value;
      MediaDataSources(mi);
      var d := BuildMediaData(Some(mi)).value;
      YearNeedsFirstAirDate(d, floatOk);
      SeasonRule(d, floatOk);
      SourceRule(d, floatOk);
    }
  }

  /** Past the guards, an exception escapes exactly when no duplicate was
      skipped and the poster or overview the media object supplies is truthy
      but not a string. */
  lemma RaisesOnlyOnNonStringText(
    cfg: Config, clientReady: bool, event: Option<EventData>, gw: Gateway,
    floatOk: Value -> bool, h: seq<Entry>, now: string)
    requires PassesGuards(cfg, clientReady, event)
    ensures var s := OnTransferComplete(cfg, clientReady, event, gw, floatOk, h, now);
      var mi := event.value.mediainfo.value;
      var poster := mi.posterImage.GetOr(VStr(""));
      var overview := mi.overview.GetOr(VStr(""));
      s.outcome.Raised? <==>
        && !(cfg.skipExisting && HasId(CheckDuplicate(gw.duplicateQuery)))
        && ((Truthy(poster) && !poster.VStr?) || (Truthy(overview) && !overview.VStr?))
  {
    MediaDataSources(event.value.mediainfo.value);
  }

  /** The entry a completed sync records: the media's title, and the new
      page's id only on success. */
  lemma RecordedEntry(
    cfg: Config, clientReady: bool, event: Option<EventData>, gw: Gateway,
    floatOk: Value -> bool, h: seq<Entry>, now: string)
    ensures var s := OnTransferComplete(cfg, clientReady, event, gw, floatOk, h, now);
      s.outcome.Skipped? || s.outcome.Synced? || s.outcome.SyncFailed? ==>
        var e := s.history[|s.history| - 1];
        && e.title == event.value.mediainfo.value.title
        && e.kind == KindValue(event.value.mediainfo.value.kind).value
        && e.year == event.value.mediainfo.value.year
        && e.tmdbId == event.value.mediainfo.value.tmdbId
        && e.poster == event.value.mediainfo.value.posterImage.GetOr(VStr(""))
        && e.time == now
        && (s.outcome.Synced? <==> e.pageId != "")
  {
  }

  /** A successful sync sends a notification exactly when notifications are
      on: it names the media's title and carries its poster image. */
  lemma SyncNotice(
    cfg: Config, clientReady: bool, event: Option<EventData>, gw: Gateway,
    floatOk: Value -> bool, h: seq<Entry>, now: string)
    ensures var s := OnTransferComplete(cfg, clientReady, event, gw, floatOk, h, now);
      s.outcome.Synced? ==>
        && (s.notice.Some? <==> cfg.notify)
        && (cfg.notify ==> s.notice == Some(Notice(
             "已同步: " + Str(event.value.mediainfo.value.title),
             event.value.mediainfo.value.posterImage.GetOr(VStr("")))))
  {
  }
}

=== FILE: py_value.dfy ===
/** The loosely typed dictionaries the plugin passes around, with the parts of
    Python's value semantics the mapper relies on: truthiness, `or`,
    `dict.get`, `str()`, `str.lower()` and `int()`. */
module PyValue {
  import opened Wrappers
  import opened IntText

  /** A Python value as seen by the mapper. `VOther` stands for every other
      object (a float, an enum member, ...): it is summarised by its truth
      value, its `str()` text and the outcome of `int()` on it, and it has no
      sequence protocol, so slicing it, taking its `len()` or calling
      `startswith` on it raises. */
  datatype Value =
    | VNone
    | VStr(s: string)
    | VInt(i: int)
    | VOther(truthy: bool, text: string, asInt: Option<int>)

  /** A Python `dict` with string keys. */
  type Dict = map<string, Value>

  /** `bool(v)`. */
  predicate Truthy(v: Value) {
    match v
    case VNone => false
    case VStr(s) => |s| > 0
    case VInt(i) => i != 0
    case VOther(t, _, _) => t
  }

  /** `a or b`: the first operand when it is truthy, otherwise the second. */
  function Or(a: Value, b: Value): (r: Value)
    ensures Truthy(r) <==> Truthy(a) || Truthy(b)
    ensures Truthy(a) ==> r == a
    ensures !Truthy(a) ==> r == b
  {
    if Truthy(a) then a else b
  }

  /** `d.get(k, default)`. */
  function GetOr(d: Dict, k: string, default: Value): (r: Value)
    ensures k !in d ==> r == default
  {
    if k in d then d[k] else default
  }

  /** `d.get(k)`, whose default is `None`. */
  function Get(d: Dict, k: string): (r: Value)
    ensures Truthy(r) ==> k in d && r == d[k]
  {
    GetOr(d, k, VNone)
  }

  /** `str(v)`: `None` is written `None`, a string is itself, and an integer
      is its decimal numeral, which `int()` reads back
      (`IntText.ParseFormatRoundTrip`). */
  function Str(v: Value): (r: string)
    ensures v.VNone? ==> r == "None"
    ensures v.VStr? ==> r == v.s
    ensures v.VInt? ==> r == FormatInt(v.i)
    ensures v.VOther? ==> r == v.text
  {
    match v
    case VNone => "None"
    case VStr(s) => s
    case VInt(i) => FormatInt(i)
    case VOther(_, text, _) => text
  }

  /** The truth value of a string or an integer can be read off its `str()`:
      a string is false iff it is empty, an integer iff its text is `0`. */
  lemma TruthyFromText(v: Value)
    ensures v.VStr? ==> (Truthy(v) <==> Str(v) != "")
    ensures v.VInt? ==> (Truthy(v) <==> Str(v) != "0")
  {
    if v.VInt? && Str(v) == "0" {
      ParseFormatRoundTrip(v.i);
      assert ParseInt("0") == Some(0) by {
        ParseFormatRoundTrip(0);
        assert FormatInt(0) == "0";
      }
    }
  }

  /** Values whose `str()` is not the empty string when they are truthy. */
  predicate WellFormed(v: Value) {
    v.VOther? ==> |v.text| > 0
  }

  lemma StrOfTruthyIsNonEmpty(v: Value)
    requires WellFormed(v) && Truthy(v)
    ensures |Str(v)| > 0
  {
  }

  /** `int(v)`; `None` is the `ValueError` or `TypeError` it raises. Text
      converts exactly as the numeral parser reads it, an integer is itself,
      `None` never converts, and any other object gives its own outcome. */
  function ToInt(v: Value): (r: Option<int>)
    ensures v.VNone? ==> r.None?
    ensures v.VInt? ==> r == Some(v.i)
    ensures v.VStr? ==> r == ParseInt(v.s)
    ensures v.VOther? ==> r == v.asInt
  {
    match v
    case VNone => None
    case VStr(s) => ParseInt(s)
    case VInt(i) => Some(i)
    case VOther(_, _, n) => n
  }

  /** Upper-case ASCII letters map to lower case; every other character is
      kept. */
  function LowerChar(c: char): (r: char)
    ensures 'A' <= c <= 'Z' ==> r as int == c as int + 32 && 'a' <= r <= 'z'
    ensures !('A' <= c <= 'Z') ==> r == c
  {
    if 'A' <= c <= 'Z' then (c as int - 'A' as int + 'a' as int) as char else c
  }

  /** `s.lower()`, restricted to ASCII letters. */
  function Lower(s: string): (r: string)
    ensures |r| == |s|
    ensures forall i | 0 <= i < |s| :: r[i] == LowerChar(s[i])
  {
    if |s| == 0 then "" else [LowerChar(s[0])] + Lower(s[1..])
  }

  /** Lower-casing twice is lower-casing once. */
  lemma LowerIdempotent(s: string)
    ensures Lower(Lower(s)) == Lower(s)
  {
  }

  /** `s[:n]`. */
  function Prefix(s: string, n: nat): (r: string)
    ensures |r| == if |s| < n then |s| else n
    ensures r <= s
  {
    if |s| < n then s else s[..n]
  }
}

=== FILE: sync_history.dfy ===
/** The plugin's sync history: a list of the last hundred sync attempts,
    appended to after every attempt and pruned by the delete endpoint. The
    host's key-value store is not modelled; the stored list is a value
    threaded through the operations, and a missing list is the empty one. */
module SyncHistory {
  import opened Wrappers
  import opened PyValue

  /** How many entries the history keeps. */
  const MaxEntries := 100

  /** One recorded sync attempt. `pageId` is `""` when no page was made. */
  datatype Entry = Entry(
    title: Value,
    kind: Value,
    year: Value,
    poster: Value,
    tmdbId: Value,
    pageId: string,
    status: string,
    time: string)

  /** An endpoint's answer, `schemas.Response(success, message)`. */
  datatype Response = Response(success: bool, message: string)

  const WrongApiKey := "API密钥错误"
  const NoHistory := "未找到历史记录"
  const Deleted := "删除成功"

  /** The entry `_save_history` records for `data`; `now` is the formatted
      current time. */
  function NewEntry(data: Dict, pageId: Option<string>, status: string, now: string): (e: Entry)
    ensures e.pageId == if pageId.Some? then pageId.value else ""
    ensures e.status == status && e.time == now
    ensures "title" in data ==> e.title == data["title"]
    ensures "title" !in data ==> e.title == VStr("未知")
    ensures e.kind == GetOr(data, "type", VStr("")) && e.year == GetOr(data, "year", VStr(""))
    ensures e.poster == GetOr(data, "poster", VStr("")) && e.tmdbId == GetOr(data, "tmdb_id", VStr(""))
  {
    Entry(
      GetOr(data, "title", VStr("未知")),
      GetOr(data, "type", VStr("")),
      GetOr(data, "year", VStr("")),
      GetOr(data, "poster", VStr("")),
      GetOr(data, "tmdb_id", VStr("")),
      pageId.GetOr(""),
      status,
      now)
  }

  /** `history[-100:]` when the list has grown past the cap. */
  function Trim(h: seq<Entry>): (r: seq<Entry>)
    ensures |r| <= MaxEntries
    ensures |h| <= MaxEntries ==> r == h
    ensures |h| > MaxEntries ==> |r| == MaxEntries
    ensures r == h[|h| - |r|..]
  {
    if |h| > MaxEntries then h[|h| - MaxEntries..] else h
  }

  /** Append one entry and keep the newest hundred. */
  function Append(h: seq<Entry>, e: Entry): (r: seq<Entry>)
    ensures 0 < |r| <= MaxEntries
    ensures r[|r| - 1] == e
    ensures |h| < MaxEntries ==> r == h + [e]
    ensures |h| >= MaxEntries ==> |r| == MaxEntries && r[..|r| - 1] == h[|h| - (MaxEntries - 1)..]
  {
    var r := Trim(h + [e]);
    assert r == (h + [e])[|h| + 1 - |r|..];
    r
  }

  /** `_save_history`: record one attempt in the stored history. */
  function SaveHistory(h: seq<Entry>, data: Dict, pageId: Option<string>, status: string, now: string)
    : (r: seq<Entry>)
    ensures 0 < |r| <= MaxEntries
    ensures r[|r| - 1] == NewEntry(data, pageId, status, now)
    ensures |h| < MaxEntries ==> |r| == |h| + 1 && r[..|h|] == h
    ensures |h| >= MaxEntries ==> |r| == MaxEntries && r[..MaxEntries - 1] == h[|h| - (MaxEntries - 1)..]
  {
    Append(h, NewEntry(data, pageId, status, now))
  }

  /** Trimming once more after appending changes nothing: the cap only ever
      drops the oldest entries. */
  lemma TrimAbsorbs(x: seq<Entry>, y: seq<Entry>)
    ensures Trim(Trim(x) + y) == Trim(x + y)
  {
    if |x| > MaxEntries {
      var k := |x| - MaxEntries;
      var s := x + y;
      assert Trim(x) + y == s[k..];
      assert s[k..][|y|..] == s[|s| - MaxEntries..];
    }
  }

  /** The history after a run of attempts. */
  function SaveAll(h: seq<Entry>, es: seq<Entry>): seq<Entry>
    decreases |es|
  {
    if |es| == 0 then h else SaveAll(Append(h, es[0]), es[1..])
  }

  /** However many attempts are recorded, the history is the newest hundred
      of the old entries followed by all the appended ones, in order. */
  lemma {:induction false} SaveAllKeepsNewest(h: seq<Entry>, es: seq<Entry>)
    requires |h| <= MaxEntries
    ensures SaveAll(h, es) == Trim(h + es)
    decreases |es|
  {
    if |es| == 0 {
      assert h + es == h;
    } else {
      var h' := Append(h, es[0]);
      SaveAllKeepsNewest(h', es[1..]);
      AppendThenTrim(h, es);
    }
  }

  lemma AppendThenTrim(h: seq<Entry>, es: seq<Entry>)
    requires |es| > 0
    ensures Trim(Append(h, es[0]) + es[1..]) == Trim(h + es)
  {
    var e := es[0];
    var rest := es[1..];
    assert Append(h, e) == Trim(h + [e]);
    TrimAbsorbs(h + [e], rest);
    assert es == [e] + rest;
    assert h + [e] + rest == h + es;
  }

  // ---------------------------------------------------------------------
  // delete_history

  /** An entry the delete key names, by page id or by title. */
  predicate Matches(e: Entry, key: string) {
    e.pageId == key || e.title == VStr(key)
  }

  /** The list comprehension in `delete_history`: the entries `key` does not name,
      in their original order. */
  function KeepOthers(h: seq<Entry>, key: string): (r: seq<Entry>)
    ensures |r| <= |h|
    ensures forall i | 0 <= i < |r| :: !Matches(r[i], key)
  {
    if |h| == 0 then [] else (if Matches(h[0], key) then [] else [h[0]]) + KeepOthers(h[1..], key)
  }

  /** Filtering distributes over concatenation, so the survivors keep their
      relative order. */
  lemma {:induction false} KeepOthersAppend(a: seq<Entry>, b: seq<Entry>, key: string)
    ensures KeepOthers(a + b, key) == KeepOthers(a, key) + KeepOthers(b, key)
    decreases |a|
  {
    if |a| == 0 {
      assert a + b == b;
    } else {
      assert (a + b)[1..] == a[1..] + b;
      KeepOthersAppend(a[1..], b, key);
    }
  }

  /** Exactly the entries `key` does not name survive, each as often as it
      occurred. */
  lemma {:induction false} KeepOthersContents(h: seq<Entry>, key: string)
    ensures forall e :: multiset(KeepOthers(h, key))[e] == if Matches(e, key) then 0 else multiset(h)[e]
    decreases |h|
  {
    if |h| > 0 {
      KeepOthersContents(h[1..], key);
      assert h == [h[0]] + h[1..];
    }
  }

  /** Deleting twice with the same key is deleting once. */
  lemma {:induction false} KeepOthersIdempotent(h: seq<Entry>, key: string)
    ensures KeepOthers(KeepOthers(h, key), key) == KeepOthers(h, key)
    decreases |h|
  {
    if |h| > 0 {
      var rest := KeepOthers(h[1..], key);
      KeepOthersIdempotent(h[1..], key);
      if !Matches(h[0], key) {
        var k := [h[0]] + rest;
        assert k[0] == h[0] && k[1..] == rest;
        assert KeepOthers(k, key) == [h[0]] + KeepOthers(rest, key);
      } else {
        assert KeepOthers(h, key) == rest;
      }
    }
  }

  /** The outcome of a delete request: the response and the stored history
      afterwards. */
  datatype Deletion = Deletion(response: Response, history: seq<Entry>)

  /** `delete_history(page_id, apikey)` against the stored history `h`;
      `token` is the host's configured API token. */
  function DeleteHistory(h: seq<Entry>, key: string, apikey: string, token: string): (r: Deletion)
    ensures r.response.success <==> apikey == token && |h| > 0
    ensures apikey != token ==> r == Deletion(Response(false, WrongApiKey), h)
    ensures apikey == token && |h| == 0 ==> r == Deletion(Response(false, NoHistory), h)
    ensures r.response.success ==>
      && r.history == KeepOthers(h, key)
      && forall i | 0 <= i < |h| :: !Matches(h[i], key) <==> h[i] in r.history
  {
    if apikey != token then Deletion(Response(false, WrongApiKey), h)
    else if |h| == 0 then Deletion(Response(false, NoHistory), h)
    else
      KeepOthersContents(h, key);
      assert forall i | 0 <= i < |h| :: multiset(h)[h[i]] > 0;
      Deletion(Response(true, Deleted), KeepOthers(h, key))
  }
}

=== FILE: wrappers.dfy ===
/** Optional values and fallible results, used wherever the plugin returns
    `None` or lets a Python exception escape. */
module Wrappers {

  datatype Option<+T> = None | Some(value: T) {

    /** The wrapped value, or `default` when there is none. */
    function GetOr(default: T): T {
      match this
      case Some(v) => v
      case None => default
    }
  }

  datatype Result<+R, +E> = Success(value: R) | Failure(error: E)
}
